=== FILE: README.md ===
# Task store and credential/token core of the FastAPI cookbook services

This project models, in Dafny, the core of two small web services.

- **The task manager's store** (`task-manager/operations.py`). The file `tasks.csv` is modelled as a
  value `CsvFile`: either `Missing`, or `Present(rows)`. Each `Row` holds an id cell and the title,
  description and status. An id cell is `None` when it does not parse as an integer.
  - `read_all_tasks` becomes `ReadAllTasks`, which returns a `Result`. A missing file fails with
    `FileNotFound` and an unparsable id fails with `InvalidId`, just as the Python raises.
  - `get_next_id` becomes `GetNextId`, which maps both failures to 1.
  - `TaskStore` is a class with one field, `file`. Its methods `ReadTask`, `SaveTask`, `CreateTask`,
    `ModifyTask` and `RemoveTask` replace that field as the Python rewrites or appends to the file.
    `ModifyTask` and `RemoveTask` keep the source's loops.
  - Each method is proved against specification functions on sequences of records: `FindFirst`,
    `Modified`, `Updated`, `Without`, `Removed`, `Appended`. Lemmas then prove the source's promises
    about those functions.
  - `DeleteSecondThenCreate` is a client of the class. It deletes task 2 out of tasks 1, 2 and 3,
    then creates a task, and shows that the new task gets id 4.
- **User registration** (`saas_app/saas_app/operations.py`). The `users` table is a class
  `UserTable` holding a sequence of `User` rows. The table's invariant is that the key, the username
  and the email are each unique. `AddUser` is proved against the function `InsertUser`: on a clash
  the insert is rolled back and returns `None`, otherwise exactly one row is appended.
- **Authentication and tokens** (`saas_app/saas_app/security.py`). These are modelled as functions.
  The password verifier, the JWT encoder and decoder, and the user lookup `get_user` are
  function-typed parameters. The model states how their answers combine into a login response and
  into the user behind a token.

Two behaviours of the code worth knowing:

- **Ids can be reused.** The next id is the largest id plus one, so a deleted id can be handed out
  again. After the task with the largest id is deleted, the next id never exceeds the deleted one,
  or 1 when that id was below 1 (`NextIdAfterDeletingNewest`). In a store holding only task 1, deleting it and creating a task
  hands out id 1 again (`IdReusedAfterDeletingNewest`).
- **A missing file is an error for reads.** Listing, reading, updating or deleting with no
  `tasks.csv` fails with `FileNotFound`. It is not read as an empty list. Only id assignment treats
  it as an empty store.

## Model

| member | source | states |
|---|---|---|
| `TaskModels.AddId` | task-manager/operations.py:30 | the new record carries the given id and exactly the submitted title, description and status |
| `TaskModels.ApplyUpdate` | task-manager/operations.py:39-41 | a merged record keeps its id; each supplied field replaces the stored one and each unset field is kept |
| `TaskOperations.ParseRows` | task-manager/operations.py:11-14 | reading succeeds exactly when every id cell parses; otherwise it fails with the id error; what is read re-encodes to exactly the lines of the file |
| `TaskOperations.ParseEncodeRoundTrip` | task-manager/operations.py:45-51 | writing records and reading them back gives the same records (for cells the CSV reader accepts; see Left out) |
| `TaskOperations.ReadAllTasks` | task-manager/operations.py:11-14 | a missing file is exactly the file-not-found failure; a present file fails only on an id; a successful read writes back to the same file |
| `TaskOperations.MaxId` | task-manager/operations.py:83 | the result is at least every id and is the id of some record |
| `TaskOperations.GetNextId` | task-manager/operations.py:78-85 | 1 for a missing file, an unparsable id or an empty store; otherwise larger than every id and exactly one more than the largest |
| `TaskOperations.FindFirst` | task-manager/operations.py:16-21 | `None` exactly when no record has the id; otherwise the record at the first position holding the id |
| `TaskOperations.LastMatch` | task-manager/operations.py:37-41 | `None` exactly when no record has the id; otherwise the record at the last position holding the id, the one the update and delete loops keep |
| `TaskOperations.FirstMatchIsLastMatch` | task-manager/operations.py:34-41 | with unique ids, the record the lookup finds is the record the update and delete loops report |
| `TaskOperations.ModifiedRecords` | task-manager/operations.py:36-41 | the update keeps length and order; records with other ids are untouched; records with the id take the merged fields |
| `TaskOperations.ModifiedKeepsIds` | task-manager/operations.py:39-41 | the update changes no id, so unique ids stay unique |
| `TaskOperations.ModifiedNoMatch` | task-manager/operations.py:42-54 | with no record of the id, the rewritten list equals the one read |
| `TaskOperations.WithoutMembers` | task-manager/operations.py:67-71 | a record survives deletion exactly when it is in the store and its id differs |
| `TaskOperations.WithoutConcat` | task-manager/operations.py:67-71 | deletion distributes over concatenation, so survivors keep their relative order |
| `TaskOperations.WithoutNoMatch` | task-manager/operations.py:56-76 | with no record of the id, the rewritten list equals the one read |
| `TaskOperations.WithoutKeepsUniqueIds` | task-manager/operations.py:67-71 | deletion keeps ids unique |
| `TaskOperations.CreateAppendsFresh` | task-manager/operations.py:28-32 | after a create, reading gives the old records followed by the new one (for cells the CSV reader accepts; see Left out); its id exceeds every earlier id and unique ids stay unique |
| `TaskOperations.IdReusedAfterDeletingNewest` | task-manager/operations.py:83 | an example: in a store holding only task 1, deleting it and creating again hands out id 1 again |
| `TaskOperations.NextIdAfterDeletingNewest` | task-manager/operations.py:78-85 | after the task with the largest id is deleted, the next id is at most that id (or 1 when the largest id was below 1) |
| `TaskOperations.TaskStore.ReadTask` | task-manager/operations.py:16-21 | a failed read is passed on; otherwise the first record with the id, or `None` |
| `TaskOperations.TaskStore.SaveTask` | task-manager/operations.py:23-26 | exactly one line, the encoded record, is added at the end of the file, which is created if absent |
| `TaskOperations.TaskStore.CreateTask` | task-manager/operations.py:28-32 | the record gets the next id and is appended; on a readable store, the store reads as the old records plus the new one, with a larger id (for cells the CSV reader accepts; see Left out) |
| `TaskOperations.TaskStore.ModifyTask` | task-manager/operations.py:34-54 | a failed read leaves the file alone; otherwise the file is rewritten as the merged list and the merged record is returned; a miss returns `None` and leaves the file as it was |
| `TaskOperations.TaskStore.RemoveTask` | task-manager/operations.py:56-76 | a failed read leaves the file alone; otherwise the file is rewritten without the id's records and the removed record is returned without its id; a miss returns `None` and leaves the file as it was |
| `SaasOperations.NextKey` | saas_app/saas_app/models.py:19-21 | the key given to a new row is positive and larger than every key in use |
| `SaasOperations.InsertUser` | saas_app/saas_app/operations.py:10-32 | on a username or email clash: `None` and the table unchanged; otherwise exactly one appended row with the given username, email and digest, the basic role and a fresh key |
| `SaasOperations.InsertKeepsUniqueKeys` | saas_app/saas_app/models.py:19-27 | every insert keeps key, username and email unique |
| `SaasOperations.SecondRegistrationRefused` | saas_app/saas_app/operations.py:22-32 | registering a username again is refused, the table is unchanged and exactly one row holds that username |
| `SaasOperations.DigestIsNotPlaintext` | saas_app/saas_app/operations.py:16-21 | the stored digest differs from the password when the hash never returns its input |
| `SaasOperations.UserTable.AddUser` | saas_app/saas_app/operations.py:10-32 | the returned row and the new table are those of `InsertUser` on the password's digest; uniqueness is kept |
| `Security.AuthenticateUser` | saas_app/saas_app/security.py:28-50 | `None` for an unknown user or a password that does not verify; otherwise exactly the looked-up user |
| `Security.AccessClaims` | saas_app/saas_app/security.py:63-65 | the signed payload has the caller's claims plus `exp`, which is now plus 30 minutes; every other claim is unchanged |
| `Security.CreateAccessToken` | saas_app/saas_app/security.py:53-67 | the token is the server key and HS256 applied to a payload holding exactly the caller's claims plus `exp`; `exp` is now plus 30 minutes and every other claim is unchanged |
| `Security.DecodeAccessToken` | saas_app/saas_app/security.py:69-83 | `None` exactly when decoding fails; otherwise the decoded payload |
| `Security.GetUserFromToken` | saas_app/saas_app/security.py:85-100 | `None` when decoding fails or there is no `sub`; otherwise the lookup of the subject |
| `Security.GetUserAccessToken` | saas_app/saas_app/security.py:103-116 | failed authentication gives the one 401 error, with the `WWW-Authenticate: Bearer` challenge; success gives a bearer token signing exactly `sub` = username and `exp` = now plus 30 minutes |
| `Security.ReadUsersMe` | saas_app/saas_app/security.py:118-132 | an unresolved token gives 401 with the `WWW-Authenticate: Bearer` challenge; otherwise "<username> authorized." |
| `Security.LoginFailuresIndistinguishable` | saas_app/saas_app/security.py:108-114 | an unknown user and a wrong password get the same response |
| `Security.IssuedTokenNamesUser` | saas_app/saas_app/security.py:85-116 | if the decoder returns what was signed, a login token resolves to the lookup of the user's username |
| `Security.RegisterLoginAndAccess` | saas_app/saas_app/security.py:103-132 | suppose a fresh registration, a lookup that finds the stored row, a hasher that verifies its own digests and a decoder that returns what was signed; then login succeeds and `/users/me` answers for that user |

## Left out

- CSV text: quoting, the header line and the character-level parsing of cells are not modelled. The file is its sequence of data lines, and an id cell either parses to an integer or does not.
- ParseEncodeRoundTrip: the round trip holds only for cells without carriage returns and of at most 131072 characters. The file is read without `newline=''`, so a `\r` or `\r\n` inside a quoted cell comes back as `\n`, and the next rewrite stores it that way. A cell longer than the CSV reader's field limit of 131072 characters makes the read raise `csv.Error`; the writers put out cells of any length.
- CreateAppendsFresh: reading after a create gives the old records plus the new one only when the new task's cells have no carriage return and at most 131072 characters. After a longer cell is stored, every later read raises `csv.Error`.
- CreateTask: the same limit applies. Creating a task with a cell longer than 131072 characters succeeds, but from then on every list, read, create, update and delete raises `csv.Error`. The model reads the store back as the old records plus the new one.
- ReadAllTasks, GetNextId: the `csv.Error` for an oversized cell is not modelled. `get_next_id` catches only a missing file and a bad id, so in the source that error reaches the caller. The model has no such failure, and `GetNextId` keeps returning the largest id plus one.
- ReadAllTasks: only an unparsable id makes a read fail. A line with a missing column, which the record validation would reject, is not modelled.
- SaveTask: appending to a missing file creates a file without a header line. The CSV reader would take that first line as the header. The model treats the appended line as a readable record.
- ApplyUpdate: an update body that sets a field explicitly to null is not modelled. A supplied field is always a string.
- HTTP routing and status codes of the task routes, and the app objects of both services, are left out. Of the handlers, only `/token` and `/users/me` in security.py are modelled.
- The task manager's own login (task-manager/main.py) relies on a `security` module that is not part of this model.
- Premium registration is left out. saas_app/saas_app/premium_access.py passes a `role` argument that `add_user` does not accept, so that path cannot succeed as written.
- The ORM session, commit, refresh and rollback are not modelled as objects. The insert is modelled as a transaction that either appends the row or leaves the table unchanged.
- NextKey: the database's choice of primary key is modelled as one more than the largest key. Only its freshness is relied on.
- `get_user` is not part of this model. It is a lookup parameter.
- Cryptography is left out. bcrypt hashing and verification and JWT signing and decoding, including the signature and expiry checks, are parameters; the salt is part of the hash parameter.
- A malformed stored digest, on which the password library may raise, is not modelled: verification is a total boolean function.
- GetUserFromToken: a non-string `sub` gives `None` in the model. The JWT library already rejects such a token while decoding.
- Time: "now" is whole seconds since the epoch. Fractions of a second, which the JWT library drops when it stores `exp`, and time zones are not modelled.
- Concurrent requests and a crash in the middle of rewriting the task file are not modelled.

=== FILE: saas_models.dfy ===
/** The user table of the SaaS application (saas_app/saas_app/models.py). */
module SaasModels {

  /** The two roles a user can hold. */
  datatype Role = Basic | Premium

  /** A row of the `users` table. `id` is the primary key the database
      assigns; `username` and `email` are unique columns; the role defaults
      to `Basic`. */
  datatype User = User(id: int, username: string, email: string, hashedPassword: string, role: Role)

  /** The table's constraints: the primary key, the username and the email
      are each unique across all rows. */
  ghost predicate UniqueKeys(users: seq<User>)
  {
    forall i, j :: 0 <= i < j < |users| ==>
      users[i].id != users[j].id && users[i].username != users[j].username && users[i].email != users[j].email
  }
}

=== FILE: saas_operations.dfy ===
/** Registration of a user (saas_app/saas_app/operations.py): an insert into
    the `users` table that either commits or, when a unique column clashes,
    is rolled back. */
module SaasOperations {
  import opened Wrappers
  import opened SaasModels

  /** Some row already holds the username or the email, so the insert would
      violate a unique constraint. */
  predicate Clashes(users: seq<User>, username: string, email: string)
  {
    exists i :: 0 <= i < |users| && (users[i].username == username || users[i].email == email)
  }

  /** The primary key the database gives a new row: one more than the largest
      key in use, or 1 in an empty table. */
  function NextKey(users: seq<User>): (k: int)
    ensures k >= 1
    ensures forall i :: 0 <= i < |users| ==> users[i].id < k
  {
    if users == [] then 1
    else
      var rest := NextKey(users[1..]);
      assert forall i :: 1 <= i < |users| ==> users[i] == users[1..][i - 1];
      if users[0].id + 1 > rest then users[0].id + 1 else rest
  }

  /** The outcome of an insert: the returned row (`None` on a clash) and the
      table afterwards. */
  datatype Insert = Insert(user: Option<User>, table: seq<User>)

  /** `add_user` on a table, given the digest `pwd_context.hash` produced. On
      a clash the transaction is rolled back: `None`, table as before.
      Otherwise exactly one row is appended, carrying the given username,
      email and digest, the `Basic` role and a key no other row holds. */
  function InsertUser(users: seq<User>, username: string, email: string, digest: string): (r: Insert)
    ensures Clashes(users, username, email) ==> r.user.None? && r.table == users
    ensures !Clashes(users, username, email) ==>
      && r.user.Some?
      && r.table == users + [r.user.value]
      && r.user.value.username == username
      && r.user.value.email == email
      && r.user.value.hashedPassword == digest
      && r.user.value.role == Basic
      && forall i :: 0 <= i < |users| ==> users[i].id != r.user.value.id
  {
    var row := User(NextKey(users), username, email, digest, Basic);
    if Clashes(users, username, email) then Insert(None, users)
    else Insert(Some(row), users + [row])
  }

  /** Every insert, committed or rolled back, keeps the key, the username
      and the email unique. */
  lemma InsertKeepsUniqueKeys(users: seq<User>, username: string, email: string, digest: string)
    requires UniqueKeys(users)
    ensures UniqueKeys(InsertUser(users, username, email, digest).table)
  {
    var r := InsertUser(users, username, email, digest);
    if !Clashes(users, username, email) {
      var table := r.table;
      forall i, j | 0 <= i < j < |table|
        ensures table[i].id != table[j].id && table[i].username != table[j].username && table[i].email != table[j].email
      {
        if j < |users| {
          assert table[i] == users[i] && table[j] == users[j];
        }
      }
    }
  }

  /** Registering the same username a second time, with any password and
      email, is refused and leaves exactly one row with that username. */
  lemma SecondRegistrationRefused(users: seq<User>, username: string, email1: string, digest1: string,
                                  email2: string, digest2: string)
    requires !Clashes(users, username, email1)
    ensures var first := InsertUser(users, username, email1, digest1);
      var second := InsertUser(first.table, username, email2, digest2);
      && second.user.None?
      && second.table == first.table
      && exists k :: (0 <= k < |second.table| && second.table[k].username == username
           && forall i :: 0 <= i < |second.table| && second.table[i].username == username ==> i == k)
  {
    var first := InsertUser(users, username, email1, digest1);
    var table := first.table;
    var k := |users|;
    assert table[k].username == username;
    assert Clashes(table, username, email2);
    forall i | 0 <= i < k
      ensures table[i].username != username
    {
      assert table[i] == users[i];
    }
  }

  /** The stored digest is never the plaintext, as long as the hash function
      never returns its input. */
  lemma DigestIsNotPlaintext(users: seq<User>, username: string, password: string, email: string,
                             hash: string -> string)
    requires forall p :: hash(p) != p
    requires !Clashes(users, username, email)
    ensures InsertUser(users, username, email, hash(password)).user.value.hashedPassword != password
  {
  }

  /** The `users` table, as the session sees it between requests. */
  class UserTable {
    var users: seq<User>

    ghost predicate Valid()
      reads this
    {
      UniqueKeys(users)
    }

    constructor ()
      ensures Valid() && users == []
    {
      users := [];
    }

    /** `add_user`: hash the password, add the row and commit; a clash on a
        unique column raises, and the rollback leaves the table as it was.
        `hash` is the password hasher, its random salt included. */
    method AddUser(username: string, password: string, email: string, hash: string -> string)
      returns (r: Option<User>)
      requires Valid()
      modifies this
      ensures Valid()
      ensures Insert(r, users) == InsertUser(old(users), username, email, hash(password))
    {
      var hashedPassword := hash(password);
      var dbUser := User(NextKey(users), username, email, hashedPassword, Basic);
      InsertKeepsUniqueKeys(users, username, email, hashedPassword);
      if Clashes(users, username, email) {
        // the commit raises IntegrityError; rollback discards the pending row
        r := None;
      } else {
        users := users + [dbUser];
        r := Some(dbUser);
      }
    }
  }
}

=== FILE: security.dfy ===
/** Authentication and bearer tokens of the SaaS application
    (saas_app/saas_app/security.py).

    The password verifier, the JWT encoder and decoder and the user lookup
    `get_user` are parameters: the model states how their answers combine,
    not how they compute them. Time is whole seconds since the epoch. */
module Security {
  import opened Wrappers
  import opened SaasModels
  import SaasOperations

  const SecretKey: string := "a_very_secret_key"
  const Algorithm: string := "HS256"
  const AccessTokenExpireMinutes: int := 30

  /** A claim value: a string, or a NumericDate (whole seconds since the
      epoch), the form in which the JWT library stores a datetime `exp`. */
  datatype Claim = Str(s: string) | NumericDate(seconds: int)

  /** A token payload. */
  type Claims = map<string, Claim>

  /** Any `JWTError`: a bad signature, a malformed token, an expired `exp`, a
      claim of the wrong type. */
  datatype JwtError = JwtError

  /** The body of a successful `/token` response. */
  datatype TokenResponse = TokenResponse(accessToken: string, tokenType: string)

  /** An `HTTPException`: status code, detail and response headers. */
  datatype HttpError = HttpError(statusCode: int, detail: string, headers: map<string, string>)

  /** `get_user(db, key)`: the user with that username or email, if any. */
  type UserLookup = string -> Option<User>
  /** `pwd_context.verify(plaintext, digest)`. */
  type PasswordCheck = (string, string) -> bool
  /** `jwt.encode(claims, key, algorithm=...)`. */
  type TokenEncoder = (Claims, string, string) -> string
  /** `jwt.decode(token, key, algorithms=[...])`, raising `JWTError` on failure. */
  type TokenDecoder = (string, string, seq<string>) -> Result<Claims, JwtError>

  const Unauthorized: int := 401
  /** The challenge both 401 responses carry. */
  const BearerChallenge: map<string, string> := map["WWW-Authenticate" := "Bearer"]
  const BadLogin: HttpError := HttpError(Unauthorized, "Incorrect username or password", BearerChallenge)
  const BadToken: HttpError := HttpError(Unauthorized, "Invalid authentication credentials", BearerChallenge)

  /** `authenticate_user`: the looked-up user, provided there is one and the
      password verifies against its stored digest; `None` otherwise. */
  function AuthenticateUser(getUser: UserLookup, verify: PasswordCheck, usernameOrEmail: string, password: string)
    : (r: Option<User>)
    ensures r.Some? <==> getUser(usernameOrEmail).Some? && verify(password, getUser(usernameOrEmail).value.hashedPassword)
    ensures r.Some? ==> r == getUser(usernameOrEmail)
  {
    var user := getUser(usernameOrEmail);
    if user.None? || !verify(password, user.value.hashedPassword) then None
    else user
  }

  /** The payload `create_access_token` signs: a copy of the caller's claims
      with `exp` set to now plus the expiry window. Every other claim is kept. */
  function AccessClaims(data: Claims, now: int): (c: Claims)
    ensures c.Keys == data.Keys + {"exp"}
    ensures c["exp"] == NumericDate(now + AccessTokenExpireMinutes * 60)
    ensures forall k :: k in data && k != "exp" ==> c[k] == data[k]
  {
    data["exp" := NumericDate(now + AccessTokenExpireMinutes * 60)]
  }

  /** `create_access_token`: sign the payload with the server key and HS256. */
  function CreateAccessToken(encode: TokenEncoder, data: Claims, now: int): (token: string)
    ensures exists c: Claims ::
      && token == encode(c, SecretKey, Algorithm)
      && c.Keys == data.Keys + {"exp"}
      && c["exp"] == NumericDate(now + AccessTokenExpireMinutes * 60)
      && (forall k :: k in data && k != "exp" ==> c[k] == data[k])
  {
    var c := AccessClaims(data, now);
    encode(c, SecretKey, Algorithm)
  }

  /** `decode_access_token`: the verified payload, and `None` instead of any
      decoding error. */
  function DecodeAccessToken(decode: TokenDecoder, token: string): (r: Option<Claims>)
    ensures r.None? <==> decode(token, SecretKey, [Algorithm]).Failure?
    ensures r.Some? ==> r.value == decode(token, SecretKey, [Algorithm]).value
  {
    match decode(token, SecretKey, [Algorithm])
    case Failure(_) => None
    case Success(payload) => Some(payload)
  }

  /** `get_user_from_token`: `None` for a token that does not decode or has
      no subject, otherwise the lookup of the subject. */
  function GetUserFromToken(decode: TokenDecoder, getUser: UserLookup, token: string): (r: Option<User>)
    ensures DecodeAccessToken(decode, token).None? ==> r.None?
    ensures DecodeAccessToken(decode, token).Some? && "sub" !in DecodeAccessToken(decode, token).value ==> r.None?
    ensures DecodeAccessToken(decode, token).Some? && "sub" in DecodeAccessToken(decode, token).value
            && DecodeAccessToken(decode, token).value["sub"].Str? ==>
              r == getUser(DecodeAccessToken(decode, token).value["sub"].s)
    ensures r.Some? ==> exists key :: r == getUser(key)
  {
    match DecodeAccessToken(decode, token)
    case None => None
    case Some(payload) =>
      if "sub" !in payload then None
      else
        match payload["sub"]
        case Str(username) => getUser(username)
        case NumericDate(_) => None
  }

  /** The `/token` handler: on good credentials a bearer token whose payload
      holds exactly the user's username as `sub` and the expiry; on an unknown
      user or a wrong password, the same 401 error. */
  function GetUserAccessToken(getUser: UserLookup, verify: PasswordCheck, encode: TokenEncoder,
                              username: string, password: string, now: int)
    : (r: Result<TokenResponse, HttpError>)
    ensures AuthenticateUser(getUser, verify, username, password).None? ==> r == Failure(BadLogin)
    ensures AuthenticateUser(getUser, verify, username, password).Some? ==>
      && r.Success?
      && r.value.tokenType == "bearer"
      && exists c: Claims ::
           && r.value.accessToken == encode(c, SecretKey, Algorithm)
           && c.Keys == {"sub", "exp"}
           && c["sub"] == Str(AuthenticateUser(getUser, verify, username, password).value.username)
           && c["exp"] == NumericDate(now + AccessTokenExpireMinutes * 60)
  {
    match AuthenticateUser(getUser, verify, username, password)
    case None => Failure(BadLogin)
    case Some(user) =>
      var data := map["sub" := Str(user.username)];
      var c := AccessClaims(data, now);
      assert c["sub"] == Str(user.username);
      Success(TokenResponse(CreateAccessToken(encode, data, now), "bearer"))
  }

  /** The `/users/me` handler: the user behind a valid token, or a 401. */
  function ReadUsersMe(decode: TokenDecoder, getUser: UserLookup, token: string): (r: Result<string, HttpError>)
    ensures GetUserFromToken(decode, getUser, token).None? ==> r == Failure(BadToken)
    ensures GetUserFromToken(decode, getUser, token).Some? ==>
      r == Success(GetUserFromToken(decode, getUser, token).value.username + " authorized.")
  {
    match GetUserFromToken(decode, getUser, token)
    case None => Failure(BadToken)
    case Some(user) => Success(user.username + " authorized.")
  }

  /** An unknown user and a wrong password are answered identically, so a
      caller cannot tell which usernames exist. */
  lemma LoginFailuresIndistinguishable(getUser: UserLookup, verify: PasswordCheck, encode: TokenEncoder,
                                       unknown: string, password1: string,
                                       known: string, password2: string, now: int)
    requires getUser(unknown).None?
    requires getUser(known).Some? && !verify(password2, getUser(known).value.hashedPassword)
    ensures GetUserAccessToken(getUser, verify, encode, unknown, password1, now)
         == GetUserAccessToken(getUser, verify, encode, known, password2, now)
         == Failure(BadLogin)
  {
  }

  /** A token issued at login names its user: as long as the decoder returns
      the payload that was signed (the token is intact and not expired), the
      token resolves to the lookup of the user's username. */
  lemma IssuedTokenNamesUser(getUser: UserLookup, verify: PasswordCheck, encode: TokenEncoder,
                             decode: TokenDecoder, login: string, password: string, now: int)
    requires AuthenticateUser(getUser, verify, login, password).Some?
    requires var claims := AccessClaims(map["sub" := Str(getUser(login).value.username)], now);
      decode(encode(claims, SecretKey, Algorithm), SecretKey, [Algorithm]) == Success(claims)
    ensures var user := AuthenticateUser(getUser, verify, login, password).value;
      var response := GetUserAccessToken(getUser, verify, encode, login, password, now);
      response.Success? && GetUserFromToken(decode, getUser, response.value.accessToken) == getUser(user.username)
  {
    var user := getUser(login).value;
    var claims := AccessClaims(map["sub" := Str(user.username)], now);
    assert claims["sub"] == Str(user.username);
  }

  /** Register, log in, call `/users/me`: a fresh registration stores the
      digest of the password; if the lookup finds the stored row, the hasher
      verifies its own digests and the decoder returns what was signed, the
      login issues a token and `/users/me` answers for that user. */
  lemma RegisterLoginAndAccess(users: seq<User>, username: string, password: string, email: string,
                               hash: string -> string, getUser: UserLookup, verify: PasswordCheck,
                               encode: TokenEncoder, decode: TokenDecoder, now: int)
    requires !SaasOperations.Clashes(users, username, email)
    requires getUser(username) == SaasOperations.InsertUser(users, username, email, hash(password)).user
    requires verify(password, hash(password))
    requires var claims := AccessClaims(map["sub" := Str(username)], now);
      decode(encode(claims, SecretKey, Algorithm), SecretKey, [Algorithm]) == Success(claims)
    ensures var response := GetUserAccessToken(getUser, verify, encode, username, password, now);
      && response.Success?
      && ReadUsersMe(decode, getUser, response.value.accessToken) == Success(username + " authorized.")
  {
    var user := getUser(username).value;
    assert user.username == username && user.hashedPassword == hash(password);
    IssuedTokenNamesUser(getUser, verify, encode, decode, username, password, now);
  }
}

=== FILE: task_models.dfy ===
/** The records of the task manager (task-manager/models.py) and the body of
    an update request (task-manager/routers/tasks.py). */
module TaskModels {
  import opened Wrappers

  /** A task as a client submits it. */
  datatype Task = Task(title: string, description: string, status: string)

  /** A stored task: the fields of a `Task` plus its integer id. */
  datatype TaskWithId = TaskWithId(id: int, title: string, description: string, status: string)

  /** The body of an update request. Each field is either supplied (`Some`) or
      left unset (`None`); only supplied fields reach the store, because the
      router dumps the body with `exclude_unset`. */
  datatype UpdateTask = UpdateTask(title: Option<string>, description: Option<string>, status: Option<string>)

  /** The non-id fields of a stored task (`model_dump` with the "id" key deleted). */
  function DropId(t: TaskWithId): Task
  {
    Task(t.title, t.description, t.status)
  }

  /** `TaskWithId(id=..., **task.model_dump())`: a task given an id. */
  function AddId(id: int, t: Task): (r: TaskWithId)
    ensures r.id == id && DropId(r) == t
  {
    TaskWithId(id, t.title, t.description, t.status)
  }

  /** `task.model_copy(update=fields)`: every supplied field replaces the
      stored one, every unset field and the id are kept. */
  function ApplyUpdate(t: TaskWithId, u: UpdateTask): (r: TaskWithId)
    ensures r.id == t.id
    ensures u.title.Some? ==> r.title == u.title.value
    ensures u.title.None? ==> r.title == t.title
    ensures u.description.Some? ==> r.description == u.description.value
    ensures u.description.None? ==> r.description == t.description
    ensures u.status.Some? ==> r.status == u.status.value
    ensures u.status.None? ==> r.status == t.status
  {
    TaskWithId(
      t.id,
      if u.title.Some? then u.title.value else t.title,
      if u.description.Some? then u.description.value else t.description,
      if u.status.Some? then u.status.value else t.status)
  }
}

=== FILE: task_operations.dfy ===
/** The task store of the task manager (task-manager/operations.py).

    The store is the file `tasks.csv`; every operation reads it whole, and
    `modify_task` and `remove_task` rewrite it whole. The file is modelled as
    its sequence of data lines; the CSV text itself is not modelled. */
module TaskOperations {
  import opened Wrappers
  import opened TaskModels

  /** One data line of the file, in the column order id, title, description,
      status. `id` is `None` when the cell is not an integer literal, so that
      `int(row["id"])` raises `ValueError`. */
  datatype Row = Row(id: Option<int>, title: string, description: string, status: string)

  /** The backing file: absent, or present with its data lines in order. */
  datatype CsvFile = Missing | Present(rows: seq<Row>)

  /** What a read raises: `FileNotFoundError`, or the `ValueError` of an id
      that does not parse. */
  datatype ReadError = FileNotFound | InvalidId

  /** No two records share an id. */
  ghost predicate UniqueIds(ts: seq<TaskWithId>)
  {
    forall i, j :: 0 <= i < j < |ts| ==> ts[i].id != ts[j].id
  }

  /** The line the CSV writer produces for one task. */
  function EncodeRow(t: TaskWithId): Row
  {
    Row(Some(t.id), t.title, t.description, t.status)
  }

  function EncodeRows(ts: seq<TaskWithId>): seq<Row>
  {
    seq(|ts|, i requires 0 <= i < |ts| => EncodeRow(ts[i]))
  }

  lemma EncodeRowsSnoc(ts: seq<TaskWithId>, t: TaskWithId)
    ensures EncodeRows(ts + [t]) == EncodeRows(ts) + [EncodeRow(t)]
  {
    assert |EncodeRows(ts + [t])| == |EncodeRows(ts) + [EncodeRow(t)]|;
    forall i | 0 <= i < |ts| + 1
      ensures EncodeRows(ts + [t])[i] == (EncodeRows(ts) + [EncodeRow(t)])[i]
    {
      if i < |ts| {
        assert (ts + [t])[i] == ts[i];
      }
    }
  }

  /** The comprehension of `read_all_tasks`: every line becomes a task, and a
      line whose id does not parse makes the whole read fail. What it reads
      is exactly what the writer would write back. */
  function ParseRows(rows: seq<Row>): (r: Result<seq<TaskWithId>, ReadError>)
    ensures r.Success? <==> forall i :: 0 <= i < |rows| ==> rows[i].id.Some?
    ensures r.Failure? ==> r.error == InvalidId
    ensures r.Success? ==> EncodeRows(r.value) == rows
  {
    if rows == [] then Success([])
    else if rows[0].id.None? then Failure(InvalidId)
    else
      match ParseRows(rows[1..])
      case Failure(e) =>
        assert exists i :: 0 <= i < |rows[1..]| && rows[1..][i].id.None?;
        Failure(e)
      case Success(ts) =>
        var t := TaskWithId(rows[0].id.value, rows[0].title, rows[0].description, rows[0].status);
        assert EncodeRows([t] + ts) == [EncodeRow(t)] + EncodeRows(ts);
        assert rows == [rows[0]] + rows[1..];
        Success([t] + ts)
  }

  /** Writing tasks and reading them back yields the same tasks. */
  lemma {:induction false} ParseEncodeRoundTrip(ts: seq<TaskWithId>)
    ensures ParseRows(EncodeRows(ts)) == Success(ts)
  {
    var r := ParseRows(EncodeRows(ts));
    assert forall i :: 0 <= i < |ts| ==> EncodeRows(ts)[i].id.Some?;
    assert |r.value| == |EncodeRows(r.value)| == |ts|;
    forall i | 0 <= i < |ts|
      ensures r.value[i] == ts[i]
    {
      assert EncodeRows(r.value)[i] == EncodeRows(ts)[i];
    }
    assert r.value == ts;
  }

  /** `read_all_tasks`: a missing file raises `FileNotFoundError`; otherwise
      the lines are parsed in order. */
  function ReadAllTasks(f: CsvFile): (r: Result<seq<TaskWithId>, ReadError>)
    ensures f.Missing? <==> r == Failure(FileNotFound)
    ensures r.Failure? && f.Present? ==> r.error == InvalidId
    ensures r.Success? ==> f == Present(EncodeRows(r.value))
  {
    match f
    case Missing => Failure(FileNotFound)
    case Present(rows) => ParseRows(rows)
  }

  /** The largest id of a non-empty sequence of tasks. */
  function MaxId(ts: seq<TaskWithId>): (m: int)
    requires ts != []
    ensures forall i :: 0 <= i < |ts| ==> ts[i].id <= m
    ensures exists i :: 0 <= i < |ts| && ts[i].id == m
  {
    if |ts| == 1 then ts[0].id
    else
      var rest := MaxId(ts[1..]);
      assert forall i :: 1 <= i < |ts| ==> ts[i] == ts[1..][i - 1];
      if ts[0].id >= rest then ts[0].id
      else
        assert exists i :: 0 <= i < |ts| && ts[i].id == rest by {
          var k :| 0 <= k < |ts[1..]| && ts[1..][k].id == rest;
          assert ts[k + 1].id == rest;
        }
        rest
  }

  /** `get_next_id`: 1 for a missing file, an unparsable id or an empty store;
      otherwise one more than the largest id, so larger than every id. */
  function GetNextId(f: CsvFile): (n: int)
    ensures ReadAllTasks(f).Failure? ==> n == 1
    ensures ReadAllTasks(f).Success? && ReadAllTasks(f).value == [] ==> n == 1
    ensures ReadAllTasks(f).Success? ==>
      forall i :: 0 <= i < |ReadAllTasks(f).value| ==> ReadAllTasks(f).value[i].id < n
    ensures ReadAllTasks(f).Success? && ReadAllTasks(f).value != [] ==>
      exists i :: 0 <= i < |ReadAllTasks(f).value| && ReadAllTasks(f).value[i].id == n - 1
  {
    match ReadAllTasks(f)
    case Failure(_) => 1
    case Success(tasks) => if tasks == [] then 1 else MaxId(tasks) + 1
  }

  /** `k` is the position of the first record with this id. */
  ghost predicate IsFirstMatch(ts: seq<TaskWithId>, id: int, k: int)
  {
    0 <= k < |ts| && ts[k].id == id && forall j :: 0 <= j < k ==> ts[j].id != id
  }

  /** `k` is the position of the last record with this id. */
  ghost predicate IsLastMatch(ts: seq<TaskWithId>, id: int, k: int)
  {
    0 <= k < |ts| && ts[k].id == id && forall j :: k < j < |ts| ==> ts[j].id != id
  }

  /** The search of `read_task`: the first record with the id, if any. */
  function FindFirst(ts: seq<TaskWithId>, id: int): (r: Option<TaskWithId>)
    ensures r.None? <==> forall i :: 0 <= i < |ts| ==> ts[i].id != id
    ensures r.Some? ==> exists k :: IsFirstMatch(ts, id, k) && ts[k] == r.value
  {
    if ts == [] then None
    else if ts[0].id == id then
      assert IsFirstMatch(ts, id, 0);
      Some(ts[0])
    else
      var r := FindFirst(ts[1..], id);
      assert forall i :: 1 <= i < |ts| ==> ts[i] == ts[1..][i - 1];
      if r.Some? then
        assert exists k :: IsFirstMatch(ts, id, k) && ts[k] == r.value by {
          var k :| IsFirstMatch(ts[1..], id, k) && ts[1..][k] == r.value;
          assert IsFirstMatch(ts, id, k + 1);
        }
        r
      else r
  }

  /** The record `modify_task` and `remove_task` report: the loop overwrites
      its variable at every match, so the last record with the id wins. */
  function LastMatch(ts: seq<TaskWithId>, id: int): (r: Option<TaskWithId>)
    ensures r.None? <==> forall i :: 0 <= i < |ts| ==> ts[i].id != id
    ensures r.Some? ==> exists k :: IsLastMatch(ts, id, k) && ts[k] == r.value
  {
    if ts == [] then None
    else if ts[|ts| - 1].id == id then
      assert IsLastMatch(ts, id, |ts| - 1);
      Some(ts[|ts| - 1])
    else
      var r := LastMatch(ts[..|ts| - 1], id);
      if r.Some? then
        assert exists k :: IsLastMatch(ts, id, k) && ts[k] == r.value by {
          var k :| IsLastMatch(ts[..|ts| - 1], id, k) && ts[..|ts| - 1][k] == r.value;
          assert IsLastMatch(ts, id, k);
        }
        r
      else r
  }

  /** When ids are unique, the record `read_task` finds is the one the
      update and delete loops report. */
  lemma {:induction false} FirstMatchIsLastMatch(ts: seq<TaskWithId>, id: int)
    requires UniqueIds(ts)
    ensures FindFirst(ts, id) == LastMatch(ts, id)
  {
    var first, last := FindFirst(ts, id), LastMatch(ts, id);
    if first.Some? {
      var k1 :| IsFirstMatch(ts, id, k1) && ts[k1] == first.value;
      var k2 :| IsLastMatch(ts, id, k2) && ts[k2] == last.value;
      assert k1 == k2;
    }
  }

  /** A record the update loop replaces: merged if its id matches. */
  function UpdateIfMatch(t: TaskWithId, id: int, u: UpdateTask): TaskWithId
  {
    if t.id == id then ApplyUpdate(t, u) else t
  }

  /** The list `modify_task` writes back: each record with the id merged
      with the update, in place. */
  function Modified(ts: seq<TaskWithId>, id: int, u: UpdateTask): seq<TaskWithId>
  {
    if ts == [] then []
    else Modified(ts[..|ts| - 1], id, u) + [UpdateIfMatch(ts[|ts| - 1], id, u)]
  }

  /** What `modify_task` returns for the records it read. */
  function Updated(ts: seq<TaskWithId>, id: int, u: UpdateTask): Option<TaskWithId>
  {
    match LastMatch(ts, id)
    case None => None
    case Some(t) => Some(ApplyUpdate(t, u))
  }

  /** The update keeps the length and the order: a record with another id is
      untouched, a record with the id takes every supplied field and keeps
      its id and every unset field. */
  lemma {:induction false} ModifiedRecords(ts: seq<TaskWithId>, id: int, u: UpdateTask)
    ensures |Modified(ts, id, u)| == |ts|
    ensures forall k :: 0 <= k < |ts| && ts[k].id != id ==> Modified(ts, id, u)[k] == ts[k]
    ensures forall k :: 0 <= k < |ts| && ts[k].id == id ==> Modified(ts, id, u)[k] == ApplyUpdate(ts[k], u)
  {
    if ts != [] {
      var init := ts[..|ts| - 1];
      ModifiedRecords(init, id, u);
      assert forall k :: 0 <= k < |init| ==> init[k] == ts[k];
    }
  }

  /** The update never changes an id, so unique ids stay unique. */
  lemma {:induction false} ModifiedKeepsIds(ts: seq<TaskWithId>, id: int, u: UpdateTask)
    ensures |Modified(ts, id, u)| == |ts|
    ensures forall k :: 0 <= k < |ts| ==> Modified(ts, id, u)[k].id == ts[k].id
    ensures UniqueIds(ts) ==> UniqueIds(Modified(ts, id, u))
  {
    ModifiedRecords(ts, id, u);
  }

  /** With no record of that id, the update writes back what it read. */
  lemma {:induction false} ModifiedNoMatch(ts: seq<TaskWithId>, id: int, u: UpdateTask)
    requires forall k :: 0 <= k < |ts| ==> ts[k].id != id
    ensures Modified(ts, id, u) == ts
  {
    ModifiedRecords(ts, id, u);
  }

  /** The list `remove_task` writes back: the records without that id. */
  function Without(ts: seq<TaskWithId>, id: int): seq<TaskWithId>
  {
    if ts == [] then []
    else Without(ts[..|ts| - 1], id) + (if ts[|ts| - 1].id == id then [] else [ts[|ts| - 1]])
  }

  /** What `remove_task` returns: the non-id fields of the removed record. */
  function Removed(ts: seq<TaskWithId>, id: int): Option<Task>
  {
    match LastMatch(ts, id)
    case None => None
    case Some(t) => Some(DropId(t))
  }

  /** A record survives the removal exactly when its id differs. */
  lemma {:induction false} WithoutMembers(ts: seq<TaskWithId>, id: int)
    ensures forall t :: t in Without(ts, id) <==> t in ts && t.id != id
  {
    if ts != [] {
      var init := ts[..|ts| - 1];
      WithoutMembers(init, id);
      assert ts == init + [ts[|ts| - 1]];
    }
  }

  /** Removal works segment by segment, so the surviving records keep their
      relative order. */
  lemma {:induction false} WithoutConcat(a: seq<TaskWithId>, b: seq<TaskWithId>, id: int)
    ensures Without(a + b, id) == Without(a, id) + Without(b, id)
  {
    if b == [] {
      assert a + b == a;
    } else {
      var init := b[..|b| - 1];
      WithoutConcat(a, init, id);
      assert (a + b)[..|a + b| - 1] == a + init;
      assert (a + b)[|a + b| - 1] == b[|b| - 1];
    }
  }

  /** With no record of that id, the removal writes back what it read. */
  lemma {:induction false} WithoutNoMatch(ts: seq<TaskWithId>, id: int)
    requires forall k :: 0 <= k < |ts| ==> ts[k].id != id
    ensures Without(ts, id) == ts
  {
    if ts != [] {
      WithoutNoMatch(ts[..|ts| - 1], id);
    }
  }

  /** Removal keeps ids unique. */
  lemma {:induction false} WithoutKeepsUniqueIds(ts: seq<TaskWithId>, id: int)
    requires UniqueIds(ts)
    ensures UniqueIds(Without(ts, id))
  {
    if ts != [] {
      var init, last := ts[..|ts| - 1], ts[|ts| - 1];
      WithoutKeepsUniqueIds(init, id);
      if last.id != id {
        WithoutMembers(init, id);
        var w := Without(init, id);
        forall i | 0 <= i < |w|
          ensures w[i].id != last.id
        {
          assert w[i] in init;
        }
      }
    }
  }

  /** `save_task`: the file, opened for appending (and created when absent),
      gets one more line at its end. */
  function Appended(f: CsvFile, t: TaskWithId): CsvFile
  {
    match f
    case Missing => Present([EncodeRow(t)])
    case Present(rows) => Present(rows + [EncodeRow(t)])
  }

  /** `create_task` on a readable store: reading afterwards gives the old
      records followed by the new one, whose id is larger than every earlier
      id, so unique ids stay unique. */
  lemma {:induction false} CreateAppendsFresh(f: CsvFile, task: Task)
    requires ReadAllTasks(f).Success?
    ensures var ts := ReadAllTasks(f).value;
      var created := AddId(GetNextId(f), task);
      && ReadAllTasks(Appended(f, created)) == Success(ts + [created])
      && (forall i :: 0 <= i < |ts| ==> ts[i].id < created.id)
      && (UniqueIds(ts) ==> UniqueIds(ts + [created]))
  {
    var ts := ReadAllTasks(f).value;
    var created := AddId(GetNextId(f), task);
    EncodeRowsSnoc(ts, created);
    ParseEncodeRoundTrip(ts + [created]);
  }

  /** An example of id reuse: in a store holding only task 1, deleting it
      and creating another task hands out id 1 again. */
  lemma IdReusedAfterDeletingNewest()
    ensures var t := TaskWithId(1, "write", "the report", "open");
      var afterDelete := Present(EncodeRows(Without([t], 1)));
      GetNextId(Present(EncodeRows([t]))) == 2 && GetNextId(afterDelete) == t.id
  {
    var t := TaskWithId(1, "write", "the report", "open");
    assert Without([t], 1) == [];
    ParseEncodeRoundTrip([t]);
  }

  /** After the task holding the largest id is deleted, the next id handed
      out never exceeds that deleted id (or 1, the id of an empty store). */
  lemma {:induction false} NextIdAfterDeletingNewest(ts: seq<TaskWithId>)
    requires ts != []
    ensures var m := MaxId(ts);
      GetNextId(Present(EncodeRows(Without(ts, m)))) <= if m >= 1 then m else 1
  {
    var m := MaxId(ts);
    var w := Without(ts, m);
    ParseEncodeRoundTrip(w);
    assert ReadAllTasks(Present(EncodeRows(w))) == Success(w);
    if w != [] {
      var n := GetNextId(Present(EncodeRows(w)));
      var i :| 0 <= i < |w| && w[i].id == n - 1;
      WithoutMembers(ts, m);
      assert w[i] in ts && w[i].id != m;
      var j :| 0 <= j < |ts| && ts[j] == w[i];
      assert w[i].id <= m;
    }
  }

  /** The store: the current contents of `tasks.csv`. */
  class TaskStore {
    var file: CsvFile

    constructor (file: CsvFile)
      ensures this.file == file
    {
      this.file := file;
    }

    /** `read_task`: the first record with the id, `None` when there is none;
        a failed read raises. */
    method ReadTask(id: int) returns (r: Result<Option<TaskWithId>, ReadError>)
      ensures ReadAllTasks(file).Failure? ==> r == Failure(ReadAllTasks(file).error)
      ensures ReadAllTasks(file).Success? ==> r == Success(FindFirst(ReadAllTasks(file).value, id))
    {
      var read := ReadAllTasks(file);
      if read.Failure? {
        return Failure(read.error);
      }
      var tasks := read.value;
      var i := 0;
      while i < |tasks|
        invariant 0 <= i <= |tasks|
        invariant forall j :: 0 <= j < i ==> tasks[j].id != id
      {
        if tasks[i].id == id {
          ghost var found := FindFirst(tasks, id);
          assert found.Some?;
          ghost var k :| IsFirstMatch(tasks, id, k) && tasks[k] == found.value;
          assert IsFirstMatch(tasks, id, i);
          return Success(Some(tasks[i]));
        }
        i := i + 1;
      }
      return Success(None);
    }

    /** `save_task`: append one line. */
    method SaveTask(t: TaskWithId)
      modifies this
      ensures file == Appended(old(file), t)
    {
      file := Appended(file, t);
    }

    /** `create_task`: give the task the next id and append it. On a readable
        store the new record comes after all earlier ones, unchanged, and its
        id exceeds theirs. */
    method CreateTask(task: Task) returns (created: TaskWithId)
      modifies this
      ensures created == AddId(GetNextId(old(file)), task)
      ensures file == Appended(old(file), created)
      ensures ReadAllTasks(old(file)).Success? ==>
        ReadAllTasks(file) == Success(ReadAllTasks(old(file)).value + [created])
      ensures ReadAllTasks(old(file)).Success? ==>
        forall i :: 0 <= i < |ReadAllTasks(old(file)).value| ==> ReadAllTasks(old(file)).value[i].id < created.id
    {
      var taskId := GetNextId(file);
      created := AddId(taskId, task);
      if ReadAllTasks(file).Success? {
        CreateAppendsFresh(file, task);
      }
      SaveTask(created);
    }

    /** `modify_task`: merge the update into every record with the id, in
        place, and rewrite the file; return the merged record, or `None` when
        no record has the id, in which case the file is rewritten as it was.
        A failed read raises before the file is touched. */
    method ModifyTask(id: int, u: UpdateTask) returns (r: Result<Option<TaskWithId>, ReadError>)
      modifies this
      ensures ReadAllTasks(old(file)).Failure? ==>
        r == Failure(ReadAllTasks(old(file)).error) && file == old(file)
      ensures ReadAllTasks(old(file)).Success? ==>
        var ts := ReadAllTasks(old(file)).value;
        && r == Success(Updated(ts, id, u))
        && file == Present(EncodeRows(Modified(ts, id, u)))
        && ReadAllTasks(file) == Success(Modified(ts, id, u))
      ensures r == Success(None) ==> file == old(file)
    {
      var read := ReadAllTasks(file);
      if read.Failure? {
        return Failure(read.error);
      }
      var tasks := read.value;
      ghost var original := tasks;
      var updated: Option<TaskWithId> := None;
      var number := 0;
      while number < |tasks|
        invariant 0 <= number <= |tasks| == |original|
        invariant tasks[..number] == Modified(original[..number], id, u)
        invariant tasks[number..] == original[number..]
        invariant updated == Updated(original[..number], id, u)
      {
        assert original[..number + 1][..number] == original[..number];
        assert tasks[number] == original[number];
        if tasks[number].id == id {
          updated := Some(ApplyUpdate(tasks[number], u));
          tasks := tasks[number := updated.value];
        }
        assert tasks[..number + 1] == tasks[..number] + [tasks[number]];
        number := number + 1;
      }
      assert tasks == tasks[..number] && original == original[..number];
      file := Present(EncodeRows(tasks));
      ParseEncodeRoundTrip(tasks);
      if updated.None? {
        ModifiedNoMatch(original, id, u);
      }
      return Success(updated);
    }

    /** `remove_task`: rewrite the file without the records that have the
        id and return the removed record's fields without its id, or `None`
        when no record has the id, in which case the file is rewritten as it
        was. A failed read raises before the file is touched. */
    method RemoveTask(id: int) returns (r: Result<Option<Task>, ReadError>)
      modifies this
      ensures ReadAllTasks(old(file)).Failure? ==>
        r == Failure(ReadAllTasks(old(file)).error) && file == old(file)
      ensures ReadAllTasks(old(file)).Success? ==>
        var ts := ReadAllTasks(old(file)).value;
        && r == Success(Removed(ts, id))
        && file == Present(EncodeRows(Without(ts, id)))
        && ReadAllTasks(file) == Success(Without(ts, id))
      ensures r == Success(None) ==> file == old(file)
    {
      var read := ReadAllTasks(file);
      if read.Failure? {
        return Failure(read.error);
      }
      var tasks := read.value;
      var deleted: Option<TaskWithId> := None;
      file := Present([]);
      for i := 0 to |tasks|
        invariant file == Present(EncodeRows(Without(tasks[..i], id)))
        invariant deleted == LastMatch(tasks[..i], id)
      {
        assert tasks[..i + 1][..i] == tasks[..i];
        if tasks[i].id == id {
          deleted := Some(tasks[i]);
          continue;
        }
        EncodeRowsSnoc(Without(tasks[..i], id), tasks[i]);
        file := Present(file.rows + [EncodeRow(tasks[i])]);
      }
      assert tasks[..|tasks|] == tasks;
      ParseEncodeRoundTrip(Without(tasks, id));
      if deleted.None? {
        WithoutNoMatch(tasks, id);
        return Success(None);
      }
      return Success(Some(DropId(deleted.value)));
    }
  }

  /** A client of the store: from a file holding tasks 1, 2 and 3, task 2
      is deleted and another task created; the new task gets id 4. */
  method DeleteSecondThenCreate()
  {
    var task := Task("title", "description", "open");
    var tasks := [AddId(1, task), AddId(2, task), AddId(3, task)];
    ParseEncodeRoundTrip(tasks);
    var store := new TaskStore(Present(EncodeRows(tasks)));
    var removed := store.RemoveTask(2);
    assert Without(tasks, 2) == [tasks[0], tasks[2]] && LastMatch(tasks, 2) == Some(tasks[1]) by {
      assert tasks[..2] == [tasks[0], tasks[1]] && tasks[..2][..1] == [tasks[0]] && [tasks[0]][..0] == [];
      assert Without([tasks[0]], 2) == [tasks[0]];
      assert Without(tasks[..2], 2) == [tasks[0]];
    }
    assert removed == Success(Some(task));
    assert GetNextId(store.file) == 4 by {
      assert ReadAllTasks(store.file) == Success([tasks[0], tasks[2]]);
    }
    var created := store.CreateTask(task);
    assert created.id == 4;
  }
}

=== FILE: wrappers.dfy ===
/** Option and Result, the two failure-carrying shapes the services use:
    `None` stands for Python's `None` return, `Failure` for a raised exception. */
module Wrappers {

  datatype Option<+T> = None | Some(value: T)

  datatype Result<+T, +E> = Success(value: T) | Failure(error: E)
}
